=== FILE: README.md ===
# TinyMusic `Sequence`: timing and lookahead scheduling

This project models the timing core of TinyMusic's `Sequence` in Dafny and
proves properties of it. A sequence holds notes, each with a frequency in
hertz (0 is a rest) and a length in beats. It turns them into timestamped
frequency commands for one oscillator:

- `planTimingsForRemainingNotes` gives every note from the start index on
  a start time and marks it uncommitted, whether or not it was committed
  before. The notes follow each other back to back at the current tempo.
- `play` first stops any earlier playback: its `createOscillator` call runs
  `stop`, which clears the old timer and detaches the old oscillator
  (src/Sequence.js:55, 177-183). Next it plans every note from the start
  time and runs the `schedule` closure once. Last it starts the oscillator
  and keeps `schedule` running on a 60 ms timer.
- Each run of `schedule` commits, in index order, every uncommitted note
  that starts within 0.1 s of the current clock. Committing a note means
  emitting its commands through `scheduleNote`, plus `slide` when smoothing
  is on.
- Committing the last note either re-plans the whole sequence from that
  note's end (looping) or stops the oscillator there.
- `setTempo` re-plans only the notes that are not yet committed.
- `stop` detaches the oscillator and clears the timer. `push` appends notes.

How the model represents these:

- Seconds are exact `real`s.
- The audio engine is the log of commands sent to it: `SetFreq`, `Ramp`,
  `StartOsc` and `StopOsc`, each with a clock time.
- Each timer tick is an explicit call that takes the clock reading `now`.
- The state is an immutable `Sequence` record. Every operation returns a new
  record, and operations that talk to the oscillator also return the
  commands they send.

The modules follow the source's structure:

| module | file | what it holds |
|---|---|---|
| `Notes` | notes.dfy | the `Note` and `Sequence` records; the committed-note count |
| `Timing` | timing.dfy | beats to seconds, the staccato cutoff, the slide delay |
| `Planner` | planner.dfy | `planTimingsForRemainingNotes` and the sum of note lengths (`Span`) |
| `Emitter` | emitter.dfy | `scheduleNote`, `slide`, `getNextNote` |
| `Scheduler` | scheduler.dfy | the `schedule` closure, the timer tick, the scheduler's invariants |
| `Tempo` | tempo.dfy | `setTempo` as written, and the variant with the evidently intended anchor |
| `Player` | lifecycle.dfy | construction, `push`, `play`, `stop`, and runs of events |

Every scheduling pass has a reference definition that does not thread the
state through the loop:

- `DueLog` is the due notes' commands, in index order.
- `CommitDue` is the sequence with every due note committed.
- `PassEnd` is the end of the last note.
- `Scheduler.ScheduleFromSpec` proves that the loop agrees with these
  definitions.

Two predicates describe the plan:

- `Contiguous`: every note starts where the notes before it end, counted
  from the pass start at the current tempo. `play` establishes it and every
  scheduling pass keeps it. A tempo change made before any note is
  committed keeps it too. A tempo change after a note is committed can
  break it, because the committed notes keep their old-tempo timing.
  `Tempo.SetTempoEndsContiguity` gives a state where both anchors break
  it. The lemmas that need it say so in their requires. `Scheduler.ScheduleLoopRestarts` and
  `Scheduler.ScheduleStopsAtLastNoteEnd` state the end of a pass without it.
- `Orderly`: the committed notes form a prefix, and the rest are planned in
  time order. Every tick, `play`, `stop` and change to a positive tempo
  keeps it (`Player.Run`).

`play` starts the oscillator unconditionally (src/Sequence.js:172), even
for a sequence with no notes, and `Player.Play` logs that `StartOsc` in every
case.

## Model

| member | source | states |
|---|---|---|
| `Timing.NoteSeconds` | src/Sequence.js:75 | the length in seconds times the tempo is 60 times the beats; it is non-negative for a positive tempo and non-negative beats |
| `Timing.Cutoff` | src/Sequence.js:76 | the cutoff plus the silenced staccato part is the whole note; with staccato in [0, 1] the cutoff lies in [0, length]; no staccato means no cutoff |
| `Timing.SlideStartDelay` | src/Sequence.js:116-119 | for a positive tempo and non-negative smoothing the delay lies in [0, cutoff]; when the slide fits, it ends exactly at the cutoff; otherwise the slide starts with the note |
| `Emitter.NextNote` | src/Sequence.js:111-114 | the next note is the note at (index + 1) mod length, so the last note wraps round to the first and a single note slides into itself |
| `Emitter.Slide` | src/Sequence.js:121-129 | two commands: hold the note's own frequency from the note start plus the slide delay, then ramp to the next note's frequency, arriving at the cutoff; a slide that does not fit holds from the note start itself; the hold comes no earlier than the note start and no later than the ramp; a slide that fits takes exactly the smoothing length |
| `Emitter.ScheduleNote` | src/Sequence.js:72-86 | the end time is the note start plus the note's length; the first command sets the note's frequency at the start and the last silences it at the cutoff; the slide's two commands appear exactly when smoothing and frequency are both non-zero, and they are the note's `Slide` into the next note at the cutoff; with sane settings every command is timed within the note, in order |
| `Emitter.ScheduleNoteIgnoresSchedule` | src/Sequence.js:74-86 | a note's commands depend only on the score, not on any note's scheduling state |
| `Notes.CountScheduled` | src/Sequence.js:101 | the count is between 0 and the number of notes; it is the full length exactly when every note is committed, and 0 exactly when none is |
| `Notes.CountScheduledAppend` | src/Sequence.js:101 | the count of committed notes in two runs joined together is the sum of their counts; with the one-note cases this fixes the count of every sequence |
| `Notes.CountIsPrefixLength` | src/Sequence.js:101 | when the committed notes form a prefix, a note is committed exactly when its index is below the count |
| `Planner.SpanAppend` | src/Sequence.js:91-96 | the total length of two runs of notes played one after the other is the sum of their lengths |
| `Planner.SpanSliceMonotone` | src/Sequence.js:91-96 | with non-negative lengths, a longer run from the same note never ends earlier |
| `Planner.PlanFrom` | src/Sequence.js:91-96 | a plan keeps the number of notes and ends the notes' total length after its start |
| `Planner.PlanFromAt` | src/Sequence.js:91-95 | each planned note is uncommitted and starts at the plan start plus the length of the notes before it |
| `Planner.PlanFromSameTune` | src/Sequence.js:91-95 | a plan depends only on the notes' frequencies and lengths |
| `Planner.PlanTimings` | src/Sequence.js:89-97 | only the notes change, their count is kept, and the returned time is `when` plus the length of the notes from the start index on (just `when` for an index past the end) |
| `Planner.PlanTimingsSpec` | src/Sequence.js:89-97 | notes before the start index are untouched; every later note is uncommitted and starts at `when` plus the length of the notes from the start index up to it |
| `Planner.PlanTimingsIdempotent` | src/Sequence.js:89-97 | planning twice with the same arguments gives the same state and the same end time as planning once |
| `Planner.PlanAllForgetsSchedule` | src/Sequence.js:89-97 | planning from the first note makes earlier scheduling state irrelevant |
| `Planner.PlanAllOrdered` | src/Sequence.js:89-97 | with non-negative lengths, a plan from the first note leaves nothing committed and every note starting no earlier than the one before it |
| `Planner.PlanAllContiguous` | src/Sequence.js:89-97 | a plan from the first note starts every note where the planned notes before it end |
| `Scheduler.Commit` | src/Sequence.js:155 | marking a note committed changes nothing that decides how any note sounds |
| `Scheduler.FinishPass` | src/Sequence.js:156-162 | committing the last note keeps the settings, the note count and whether the sequence is playing |
| `Scheduler.ScheduleFrom` | src/Sequence.js:149-165 | a pass keeps the settings, the note count and whether the sequence is playing |
| `Scheduler.Schedule` | src/Sequence.js:148-166 | one run of the `schedule` closure keeps the settings, the note count and whether the sequence is playing; what it commits and emits is stated by `Scheduler.ScheduleFromSpec` and `Scheduler.ScheduleCommitsDue` |
| `Scheduler.Due` | src/Sequence.js:150-153 | a note is due when it is not yet committed and its planned start is at most 0.1 s after the clock reading |
| `Scheduler.Tick` | src/Sequence.js:167 | a timer tick does nothing at all to a sequence that is not playing |
| `Scheduler.CommitDue` | src/Sequence.js:150-155 | exactly the due notes from the given index on become committed; nothing else changes |
| `Scheduler.ScheduleFromSpec` | src/Sequence.js:149-165 | the pass equals the reference definitions in all three cases: the last note is not reached; it is reached without looping (the pass adds a `StopOsc` at its end); or it is reached with looping (re-plan from the end) |
| `Scheduler.ScheduleCommitsDue` | src/Sequence.js:149-162 | unless the pass loops round, it commits exactly the uncommitted notes starting within 0.1 s of `now`; it leaves committed notes untouched; it emits the due notes' commands in index order, plus one `StopOsc` at the last note's end when that note was committed without looping |
| `Scheduler.ScheduleIdle` | src/Sequence.js:150-153 | a pass with no due note changes nothing and emits nothing |
| `Scheduler.ScheduleNeverRecommits` | src/Sequence.js:150-152 | unless the first pass looped round (and so re-planned every note), a second pass at the same clock time commits nothing and emits nothing |
| `Scheduler.ScheduleLoopRestarts` | src/Sequence.js:156-159 | looping, in any state: the next pass and note 0 start exactly where the last note ends as planned; every note is uncommitted and back to back from there, the score is unchanged, and the log is the due notes' commands |
| `Scheduler.ScheduleLoopContinues` | src/Sequence.js:156-159 | looping on a back-to-back plan: the next pass starts at the old start plus the sequence's length, note 0 starts there, every note is uncommitted and back to back, and the score is unchanged |
| `Scheduler.SingleNoteLoopsWithoutGap` | src/Sequence.js:156-159 | in any state, a looping one-note sequence restarts its note exactly one note length after its previous start, uncommitted |
| `Scheduler.ScheduleStopsAtLastNoteEnd` | src/Sequence.js:160-161 | not looping, in any state: committing the last note logs exactly one `StopOsc`, as the last command, where that note ends as planned |
| `Scheduler.ScheduleStopsAtEnd` | src/Sequence.js:160-161 | not looping, on a back-to-back plan: that `StopOsc` comes at the pass start plus the sequence's length |
| `Scheduler.ScheduleKeepsContiguous` | src/Sequence.js:149-165 | a pass keeps every note starting where the notes before it end |
| `Scheduler.ScheduleKeepsOrderly` | src/Sequence.js:149-165 | with non-negative lengths, a pass keeps the committed notes a prefix and the rest in time order |
| `Scheduler.PlanFromPassStart` | src/Sequence.js:158-159 | re-planning from the pass start leaves every note uncommitted, note 0 at the pass start, and the notes back to back, with the score unchanged |
| `Tempo.WrittenAnchor` | src/Sequence.js:104-107 | as written, with `k > 0` notes committed the anchor is the length in seconds of note `k - 1` at the old tempo; with none committed it is the pass start |
| `Tempo.Retimed` | src/Sequence.js:103-108 | only the tempo (switched first) and the notes change, and the note count is kept; `Tempo.RetimedAt` gives each note: the committed-count prefix is untouched and every later note is re-planned from the anchor |
| `Tempo.SetTempo` | src/Sequence.js:99-109 | an unchanged tempo changes nothing; otherwise only the tempo and the notes change, and the note count is kept |
| `Tempo.SetTempoAt` | src/Sequence.js:101-108 | every note keeps its frequency and length; the `k` committed notes are untouched; after a real change, each later note is uncommitted and starts at the anchor plus the new-tempo length of the notes from `k` up to it |
| `Tempo.SetTempoSpec` | src/Sequence.js:99-109 | `SetTempoAt` for every note at once |
| `Tempo.SetTempoIsolatesCommitted` | src/Sequence.js:101-106 | while the committed notes form a prefix, every committed note is left exactly as it was and no other note becomes committed |
| `Tempo.SetTempoKeepsOrderly` | src/Sequence.js:99-109 | a change to a positive tempo keeps the committed notes a prefix and the re-planned tail in time order |
| `Tempo.SetTempoBeforeCommitReplansPass` | src/Sequence.js:106-108 | with nothing committed, the whole pass is re-planned back to back at the new tempo from the pass start |
| `Tempo.SetTempoShiftsTail` | src/Sequence.js:104-105 | as written, with at least one note committed, every re-planned note starts exactly the last committed note's start time earlier than the intended anchor would put it |
| `Tempo.SetTempoGapExample` | src/Sequence.js:105 | concrete case: at 120 bpm, playing from clock time 10 with note 0 committed, a change to 60 bpm plans note 1 at 0.5; the intended anchor plans it at 10.5, where note 0 ends |
| `Tempo.SetTempoEndsContiguity` | src/Sequence.js:101-108 | concrete case: on the same state, which is back to back, a change to 60 bpm leaves the notes no longer back to back from the pass start, with the written and with the intended anchor |
| `Tempo.SetTempoAnchored` | src/Sequence.js:99-109 | the corrected variant keeps the same frame: an unchanged tempo changes nothing, and otherwise only the tempo and the notes change |
| `Tempo.SetTempoAnchoredContinues` | src/Sequence.js:104-105 | with the intended anchor, the first re-planned note starts exactly when the last committed note ends; the rest follow back to back at the new tempo |
| `Player.New` | src/Sequence.js:6-15 | a tempo of 0 falls back to 120 bpm, and any other tempo is kept; the sequence loops, has no smoothing or staccato, holds the given notes and is not playing |
| `Player.Push` | src/Sequence.js:32-37 | only the notes change: the old notes stay as a prefix and the pushed notes follow them, in order |
| `Player.PushSpan` | src/Sequence.js:32-37 | pushing lengthens the sequence by exactly the pushed notes' length |
| `Player.PushKeepsCommittedPrefix` | src/Sequence.js:32-37 | pushing uncommitted notes keeps the committed notes a prefix and keeps their count |
| `Player.Stop` | src/Sequence.js:177-185 | the sequence stops playing and nothing else changes |
| `Player.StopIdempotent` | src/Sequence.js:177-185 | stopping twice is the same as stopping once |
| `Player.StopSilences` | src/Sequence.js:177-178 | after `stop`, timer ticks change nothing and emit nothing |
| `Player.StartAt` | src/Sequence.js:145 | `play` starts at the given clock time, or at the current clock time when it is given none |
| `Player.Launched` | src/Sequence.js:145-169 | the state the first pass runs on keeps everything but the notes, the pass start (now the play time) and the playing flag (now set, after the `stop` inside `createOscillator` cleared the old timer and oscillator) |
| `Player.LaunchedAt` | src/Sequence.js:169 | every note is uncommitted and starts at the play time plus the length of the notes before it |
| `Player.Play` | src/Sequence.js:144-174 | the sequence is playing with its settings and note count kept; the last command starts the oscillator at the play time, and an empty sequence logs nothing but that start |
| `Player.ScheduleNeverStarts` | src/Sequence.js:148-166 | a scheduling pass never starts the oscillator |
| `Player.PlayStartsOnce` | src/Sequence.js:171-172 | `play` starts the oscillator exactly once, after all commands of its first pass |
| `Player.PlayContiguous` | src/Sequence.js:144-174 | after `play`, every note starts where the notes before it end |
| `Player.PlayCommitsWindow` | src/Sequence.js:145-171 | when the first pass does not reach the last note: the pass starts at the play time; note `j` starts at the play time plus the length of the notes before it; it is committed exactly when that time is within 0.1 s of now |
| `Player.PlayWindowLog` | src/Sequence.js:145-172 | under the same condition, the log is the commands of the notes due in the launched state, in index order, followed by the oscillator start |
| `Player.PlayLaterSchedulesNothing` | src/Sequence.js:144-172 | playing later than the lookahead window commits nothing, and the only command is the oscillator start |
| `Player.LaunchedForgetsSchedule` | src/Sequence.js:145-169 | re-planning from index 0 at the play time erases every difference between two sequences with the same score: committed flags, planned times and the old pass start |
| `Player.PlayForgetsSchedule` | src/Sequence.js:144-174 | `play` gives the same result for any two sequences with the same score, whatever their earlier scheduling state |
| `Player.PlayOrderly` | src/Sequence.js:144-174 | with a positive tempo and non-negative lengths, `play` leaves the committed notes a prefix and the rest in time order |
| `Player.Apply` | src/Sequence.js:99-185 | a tempo-change event sets the tempo, any other event keeps it, and no event changes the note count |
| `Player.Run` | src/Sequence.js:99-185 | applying events in order keeps the note count; under any sequence of ticks, positive tempo changes, plays and stops, the committed notes stay a prefix and the rest stay in time order |
| `Player.StoppedTicksAreSilent` | src/Sequence.js:177-178 | a stopped sequence stays unchanged and silent under any number of timer ticks |

## Left out

- The audio graph is left out: gain and EQ nodes, custom waveforms, and the
  internals of `createOscillator` (src/Sequence.js:17-70). It is plumbing
  around the oscillator. The oscillator's `setValueAtTime`,
  `linearRampToValueAtTime`, `start` and `stop` calls appear only as command
  log entries, and `disconnect` has no entry. The log also drops the
  oscillator's own rules. For a non-looping sequence whose last note starts
  within 0.1 s of `now`, `Player.Play` logs `StopOsc(end)` before
  `StartOsc(at)`, and `Player.PlayStartsOnce` allows that. Web Audio throws
  when `stop` is called before `start`, so the source would throw at line
  161 and never reach line 172.
- Timers are left out: `setInterval` and `clearInterval`. Each timer firing
  is an explicit `Tick(s, now)`, and `active` records whether the timer and
  oscillator exist.
- The per-note re-read of `ac.currentTime` inside one run of `schedule` is
  left out. A run reads the clock once, as `now`.
- `push` of note strings is left out, because it needs the `Note` parser,
  which is not part of this model. `Push` appends already-built notes as
  given.
- `Push` is not among the events of `Run`. A note pushed during playback has
  no planned time in the source until the next re-plan (its
  `scheduledTime` is `undefined`), and the model has no such value.
- IEEE-754 double rounding is left out. Seconds are exact reals. In
  particular, the model computes `duration * (60 / oldTempo)` on line 105
  as the note's exact length.
- `Tempo.SetTempo`: requires both tempos to be non-zero. The source would
  divide by zero and plan at `Infinity`/`NaN` times, which reals cannot
  represent.
- `Player.New`: only a tempo of 0 is mapped to 120 bpm. The other falsy
  values `tempo || 120` catches (`undefined`, `NaN`) have no real
  counterpart.
- `Player.New` starts the pass at time 0. In the source, `startTime` is
  `undefined` until the first `play`.
- `Planner.PlanTimings`: the start index is a natural number. Negative
  `slice` indices are not modelled, and the source never passes them.
- `Player.Play`: `play` with no argument, or with a non-number, starts at
  the current clock time. `When.Immediately` stands for every such value.
- Aliasing between notes is left out. The source's notes are shared
  objects, so pushing the same `Note` twice makes both entries one note.
  The model's notes are values, so each entry is planned and committed on
  its own.

## Findings

| source | as written | input that shows it | evidently intended | confidence | as-written member | corrected member |
|---|---|---|---|---|---|---|
| src/Sequence.js:105 | after a tempo change with `k > 0` notes committed, the remaining notes are re-planned from `notes[k-1].duration * (60 / oldTempo)`: the length of the last committed note, used as an absolute clock time | tempo 120, `play(10)`, note 0 (one beat, planned at 10) committed; `setTempo(60)` re-plans note 1 to start at 0.5 instead of 10.5 | re-plan from the end of the last committed note: its `scheduledTime` plus its length at the old tempo | high; not executed | `Tempo.SetTempoShiftsTail` | `Tempo.SetTempoAnchoredContinues` |

`Tempo.SetTempoShiftsTail` states the general form of the bug. Every
re-planned note lands exactly the last committed note's start time too
early. `Tempo.SetTempoGapExample` works the input above through both
definitions. The event model (`Player.Apply`, `Player.Run`)
uses the as-written `Tempo.SetTempo`, since it models the code.
`Tempo.SetTempoAnchored` is the corrected definition, and
`Tempo.SetTempoAnchoredContinues` proves that it continues the playback
without a gap.

=== FILE: emitter.dfy ===
/**
  The audio commands one note produces when it is committed
  (`scheduleNote`, `slide`, `getNextNote`, `getSlideStartDelay`).
  The audio engine is modelled as the log of commands sent to it.
 */
module Emitter {
  import opened Notes
  import opened Timing

  /** One call on the oscillator: set its frequency at a clock time, ramp it
      linearly to a frequency arriving at a clock time, or start/stop it. */
  datatype Command =
    | SetFreq(freq: real, at: real)
    | Ramp(freq: real, at: real)
    | StartOsc(at: real)
    | StopOsc(at: real)

  /** The commands one note emits, and the clock time the note ends. */
  datatype Emission = Emission(cmds: seq<Command>, end: real)

  /** The note after `notes[index]`, wrapping round to the first note. */
  function NextNote(notes: seq<Note>, index: nat): (r: Note)
    requires index < |notes|
    ensures r == notes[(index + 1) % |notes|]
    ensures |notes| == 1 ==> r == notes[index]
  {
    notes[if index < |notes| - 1 then index + 1 else 0]
  }

  /** The slide of `notes[index]` into the next note: hold the note's own
      frequency until the slide starts, then ramp to the next note's
      frequency, arriving at the cutoff. */
  function Slide(s: Sequence, index: nat, when: real, cutoff: real): (r: seq<Command>)
    requires s.tempo != 0.0
    requires index < |s.notes|
    ensures |r| == 2
    ensures r[0] == SetFreq(s.notes[index].frequency, when + SlideStartDelay(s.tempo, s.smoothing, cutoff))
    ensures cutoff <= NoteSeconds(s.tempo, s.smoothing) ==> r[0].at == when
    ensures r[1] == Ramp(s.notes[(index + 1) % |s.notes|].frequency, when + cutoff)
    ensures s.tempo > 0.0 && s.smoothing >= 0.0 && cutoff >= 0.0 ==> when <= r[0].at <= r[1].at
    ensures NoteSeconds(s.tempo, s.smoothing) <= cutoff ==> r[1].at - r[0].at == NoteSeconds(s.tempo, s.smoothing)
  {
    var next := NextNote(s.notes, index);
    var start := SlideStartDelay(s.tempo, s.smoothing, cutoff);
    [SetFreq(s.notes[index].frequency, when + start), Ramp(next.frequency, when + cutoff)]
  }

  /** Commands `cmds` are timestamped in non-decreasing order, all within
      `[from, to]`. */
  predicate TimedWithin(cmds: seq<Command>, from: real, to: real) {
    && (forall k :: 0 <= k < |cmds| ==> from <= cmds[k].at <= to)
    && (forall k, m :: 0 <= k < m < |cmds| ==> cmds[k].at <= cmds[m].at)
  }

  /** `scheduleNote(index, when)`: set the note's frequency at `when`, slide
      into the next note when smoothing is on and the note is not a rest,
      silence it at the staccato cutoff, and report when the note ends. */
  function ScheduleNote(s: Sequence, index: nat, when: real): (r: Emission)
    requires s.tempo != 0.0
    requires index < |s.notes|
    ensures (r.end - when) * s.tempo == 60.0 * s.notes[index].duration
    ensures |r.cmds| == 2 || |r.cmds| == 4
    ensures |r.cmds| == 4 <==> s.smoothing != 0.0 && s.notes[index].frequency != 0.0
    ensures r.cmds[0] == SetFreq(s.notes[index].frequency, when)
    ensures r.cmds[|r.cmds| - 1]
         == SetFreq(0.0, when + Cutoff(NoteSeconds(s.tempo, s.notes[index].duration), s.staccato))
    ensures |r.cmds| == 4 ==>
      r.cmds[1..3] == Slide(s, index, when, Cutoff(NoteSeconds(s.tempo, s.notes[index].duration), s.staccato))
    ensures forall c :: c in r.cmds ==> c.SetFreq? || c.Ramp?
    ensures s.tempo > 0.0 && s.notes[index].duration >= 0.0 && 0.0 <= s.staccato <= 1.0 && s.smoothing >= 0.0
            ==> TimedWithin(r.cmds, when, r.end)
  {
    var note := s.notes[index];
    var duration := NoteSeconds(s.tempo, note.duration);
    var cutoff := Cutoff(duration, s.staccato);
    var slide := if s.smoothing != 0.0 && note.frequency != 0.0 then Slide(s, index, when, cutoff) else [];
    Emission([SetFreq(note.frequency, when)] + slide + [SetFreq(0.0, when + cutoff)], when + duration)
  }

  /** What a note emits depends only on the score, not on any note's
      scheduling state. */
  lemma ScheduleNoteIgnoresSchedule(a: Sequence, b: Sequence, index: nat, when: real)
    requires a.tempo != 0.0
    requires SameScore(a, b)
    requires index < |a.notes|
    ensures ScheduleNote(a, index, when) == ScheduleNote(b, index, when)
  {
    assert NextNote(a.notes, index).frequency == NextNote(b.notes, index).frequency;
  }
}

=== FILE: lifecycle.dfy ===
/**
  The player's lifecycle: creating a sequence, appending notes, `play`
  (plan from the start time, run the scheduler once, start the oscillator)
  and `stop` (src/Sequence.js:6-37, 144-185), and runs of these events
  interleaved with timer ticks and tempo changes.
 */
module Player {
  import opened Notes
  import opened Timing
  import opened Planner
  import opened Emitter
  import opened Scheduler
  import opened Tempo

  /** The argument of `play`: a clock time, or anything else, which means
      "now". */
  datatype When = At(time: real) | Immediately

  /** The clock time playback starts at. */
  function StartAt(when: When, now: real): (r: real)
    ensures when.At? ==> r == when.time
    ensures when.Immediately? ==> r == now
  {
    match when
    case At(t) => t
    case Immediately => now
  }

  /** A new sequence: a tempo of 0 falls back to 120 bpm (`tempo || 120`),
      it loops, has no smoothing or staccato, holds `notes` as given and is
      not playing. */
  function New(tempo: real, notes: seq<Note>): (r: Sequence)
    ensures r.tempo != 0.0
    ensures tempo == 0.0 ==> r.tempo == 120.0
    ensures tempo != 0.0 ==> r.tempo == tempo
    ensures r.notes == notes
    ensures r.loop && r.smoothing == 0.0 && r.staccato == 0.0 && !r.active
  {
    Sequence(notes, if tempo == 0.0 then 120.0 else tempo, true, 0.0, 0.0, 0.0, false)
  }

  /** `push(notes...)`: appends the notes at the end, in order. */
  function Push(s: Sequence, ns: seq<Note>): (r: Sequence)
    ensures r == s.(notes := r.notes)
    ensures |r.notes| == |s.notes| + |ns|
    ensures r.notes[..|s.notes|] == s.notes
    ensures r.notes[|s.notes|..] == ns
  {
    s.(notes := s.notes + ns)
  }

  /** Pushing lengthens the sequence by exactly the pushed notes' length. */
  lemma PushSpan(s: Sequence, ns: seq<Note>)
    requires s.tempo != 0.0
    ensures Span(s.tempo, Push(s, ns).notes) == Span(s.tempo, s.notes) + Span(s.tempo, ns)
  {
    SpanAppend(s.tempo, s.notes, ns);
  }

  /** Pushing uncommitted notes keeps the committed notes a prefix and does
      not change how many are committed. */
  lemma PushKeepsCommittedPrefix(s: Sequence, ns: seq<Note>)
    requires CommittedPrefix(s.notes)
    requires forall j :: 0 <= j < |ns| ==> !ns[j].scheduled
    ensures CommittedPrefix(Push(s, ns).notes)
    ensures CountScheduled(Push(s, ns).notes) == CountScheduled(s.notes)
  {
    var r := Push(s, ns).notes;
    assert forall j :: 0 <= j < |s.notes| ==> r[j] == s.notes[j];
    assert forall j :: |s.notes| <= j < |r| ==> r[j] == ns[j - |s.notes|];
    CountIsPrefixLength(s.notes);
    assert CommittedPrefix(r);
    CountIsPrefixLength(r);
    if |s.notes| < |r| {
      assert !r[|s.notes|].scheduled;
    }
    if 0 < |s.notes| && CountScheduled(s.notes) == |s.notes| {
      assert r[|s.notes| - 1].scheduled;
    }
    if CountScheduled(s.notes) < |s.notes| {
      assert !r[CountScheduled(s.notes)].scheduled;
      if 0 < CountScheduled(s.notes) {
        assert r[CountScheduled(s.notes) - 1].scheduled;
      }
    }
  }

  /** `stop()`: the oscillator is detached and the timer cleared; the notes
      and their scheduling state stay as they are. */
  function Stop(s: Sequence): (r: Sequence)
    ensures !r.active
    ensures r.(active := s.active) == s
  {
    s.(active := false)
  }

  /** Stopping twice is stopping once. */
  lemma StopIdempotent(s: Sequence)
    ensures Stop(Stop(s)) == Stop(s)
  {
  }

  /** After `stop`, timer ticks emit nothing and change nothing. */
  lemma StopSilences(s: Sequence, now: real)
    requires s.tempo != 0.0
    ensures Tick(Stop(s), now) == Step(Stop(s), [])
  {
  }

  /** The state `play` runs its first scheduling pass on: playing from `at`,
      every note re-planned from `at` (`LaunchedAt`). */
  function Launched(s: Sequence, at: real): (r: Sequence)
    requires s.tempo != 0.0
    ensures r == s.(startTime := at, active := true, notes := r.notes)
    ensures |r.notes| == |s.notes|
  {
    PlanTimings(s.(startTime := at, active := true), 0, at).state
  }

  /** Note `j` of the launched state: uncommitted, starting at `at` plus the
      length of the notes before it. */
  lemma LaunchedAt(s: Sequence, at: real, j: nat)
    requires s.tempo != 0.0
    requires j < |s.notes|
    ensures Launched(s, at).notes[j]
         == s.notes[j].(scheduled := false, scheduledTime := at + Span(s.tempo, s.notes[..j]))
  {
    PlanTimingsAt(s.(startTime := at, active := true), 0, at, j);
    assert s.notes[0..j] == s.notes[..j];
  }

  /** The launched state is back to back from `at`. */
  lemma LaunchedContiguous(s: Sequence, at: real)
    requires s.tempo != 0.0
    ensures Contiguous(Launched(s, at))
  {
    PlanFromPassStartContiguous(s.(startTime := at, active := true));
  }

  /** `play(when)`: the pass starts at `when` (or now), every note is
      re-planned from there, the scheduler runs once at the current clock
      time, and only then is the oscillator started at the start time, even
      when the sequence has no notes. */
  function Play(s: Sequence, when: When, now: real): (r: Step)
    requires s.tempo != 0.0
    ensures r.state.active
    ensures SameSettings(r.state, s)
    ensures |r.log| > 0 && r.log[|r.log| - 1] == StartOsc(StartAt(when, now))
    ensures |s.notes| == 0 ==> r.log == [StartOsc(StartAt(when, now))]
  {
    var at := StartAt(when, now);
    var pass := Schedule(Launched(s, at), now);
    Step(pass.state, pass.log + [StartOsc(at)])
  }

  /** A scheduling pass never starts the oscillator. */
  lemma ScheduleNeverStarts(s: Sequence, now: real)
    requires s.tempo != 0.0
    ensures forall k :: 0 <= k < |Schedule(s, now).log| ==> !Schedule(s, now).log[k].StartOsc?
  {
    ScheduleFromSpec(s, 0, now);
    DueLogHasNoStop(s, now, 0);
    var log := Schedule(s, now).log;
    forall k | 0 <= k < |log|
      ensures !log[k].StartOsc?
    {
      if k < |DueLog(s, now, 0)| {
        assert log[k] == DueLog(s, now, 0)[k];
        assert DueLog(s, now, 0)[k] in DueLog(s, now, 0);
      }
    }
  }

  /** `play` starts the oscillator exactly once, after every command of the
      first scheduling pass. */
  lemma PlayStartsOnce(s: Sequence, when: When, now: real)
    requires s.tempo != 0.0
    ensures var r := Play(s, when, now);
      forall k :: 0 <= k < |r.log| - 1 ==> !r.log[k].StartOsc?
  {
    var at := StartAt(when, now);
    ScheduleNeverStarts(Launched(s, at), now);
  }

  /** After `play`, every note starts where the notes before it end,
      counted from the current pass's start. */
  lemma PlayContiguous(s: Sequence, when: When, now: real)
    requires s.tempo != 0.0
    ensures Contiguous(Play(s, when, now).state)
  {
    var at := StartAt(when, now);
    LaunchedContiguous(s, at);
    ScheduleKeepsContiguous(Launched(s, at), now);
  }

  /** When the first pass does not reach its last note, `play` commits
      exactly the notes starting within the lookahead window from now and
      keeps the pass starting at `at`; `PlayWindowLog` gives the commands. */
  lemma PlayCommitsWindow(s: Sequence, when: When, now: real)
    requires s.tempo != 0.0
    requires |s.notes| > 0 ==>
      StartAt(when, now) + Span(s.tempo, s.notes[..|s.notes| - 1]) > now + Lookahead
    ensures var at := StartAt(when, now);
      var r := Play(s, when, now);
      && r.state.startTime == at
      && |r.state.notes| == |s.notes|
      && (forall j :: 0 <= j < |s.notes| ==>
            && r.state.notes[j].scheduledTime == at + Span(s.tempo, s.notes[..j])
            && (r.state.notes[j].scheduled <==> at + Span(s.tempo, s.notes[..j]) <= now + Lookahead))
  {
    var at := StartAt(when, now);
    var l := Launched(s, at);
    if |s.notes| > 0 {
      LaunchedAt(s, at, |s.notes| - 1);
      assert !WrapsFrom(l, now, 0);
    }
    ScheduleCommitsDue(l, now);
    var r := Schedule(l, now);
    forall j | 0 <= j < |s.notes|
      ensures r.state.notes[j].scheduledTime == at + Span(s.tempo, s.notes[..j])
      ensures r.state.notes[j].scheduled <==> at + Span(s.tempo, s.notes[..j]) <= now + Lookahead
    {
      LaunchedAt(s, at, j);
    }
  }

  /** Under the same condition, `play` emits the commands of the notes due
      in the launched state, in index order, and then starts the
      oscillator. */
  lemma PlayWindowLog(s: Sequence, when: When, now: real)
    requires s.tempo != 0.0
    requires |s.notes| > 0 ==>
      StartAt(when, now) + Span(s.tempo, s.notes[..|s.notes| - 1]) > now + Lookahead
    ensures var at := StartAt(when, now);
      Play(s, when, now).log == DueLog(Launched(s, at), now, 0) + [StartOsc(at)]
  {
    var at := StartAt(when, now);
    var l := Launched(s, at);
    if |s.notes| > 0 {
      LaunchedAt(s, at, |s.notes| - 1);
      assert !WrapsFrom(l, now, 0);
    }
    ScheduleCommitsDue(l, now);
  }

  /** Playing at a later time than the lookahead window commits nothing: the
      only command is the oscillator start. */
  lemma PlayLaterSchedulesNothing(s: Sequence, at: real, now: real)
    requires s.tempo > 0.0
    requires forall j :: 0 <= j < |s.notes| ==> s.notes[j].duration >= 0.0
    requires at > now + Lookahead
    ensures Play(s, At(at), now).log == [StartOsc(at)]
    ensures forall j :: 0 <= j < |s.notes| ==> !Play(s, At(at), now).state.notes[j].scheduled
  {
    var l := Launched(s, at);
    forall j | 0 <= j < |s.notes|
      ensures !l.notes[j].scheduled && !Due(l, now, j)
    {
      LaunchedAt(s, at, j);
      SpanNonNegative(s.tempo, s.notes[..j]);
    }
    ScheduleIdle(l, now);
  }

  /** `play` forgets all earlier playback: two sequences with the same score
      play identically whatever their scheduling state and pass start. */
  lemma PlayForgetsSchedule(a: Sequence, b: Sequence, when: When, now: real)
    requires a.tempo != 0.0
    requires SameScore(a, b)
    ensures Play(a, when, now) == Play(b, when, now)
  {
    LaunchedForgetsSchedule(a, b, StartAt(when, now));
  }

  /** The state the first pass runs on depends only on the score and the
      play time, not on earlier scheduling or the old pass start. */
  lemma LaunchedForgetsSchedule(a: Sequence, b: Sequence, at: real)
    requires a.tempo != 0.0
    requires SameScore(a, b)
    ensures Launched(a, at) == Launched(b, at)
  {
    PlanAllForgetsSchedule(a.(startTime := at, active := true), b.(startTime := at, active := true), at);
  }

  /** With a positive tempo and notes of non-negative length, `play` leaves
      the scheduler's invariant established. */
  lemma PlayOrderly(s: Sequence, when: When, now: real)
    requires s.tempo > 0.0
    requires forall j :: 0 <= j < |s.notes| ==> s.notes[j].duration >= 0.0
    ensures Orderly(Play(s, when, now).state)
  {
    var at := StartAt(when, now);
    var l := Launched(s, at);
    PlanAllOrdered(s.(startTime := at, active := true), at);
    forall j | 0 <= j < |s.notes|
      ensures l.notes[j].duration >= 0.0
    {
      LaunchedAt(s, at, j);
    }
    assert Orderly(l);
    ScheduleKeepsOrderly(l, now);
  }

  /** What can happen to a playing sequence between two reads of the score:
      a timer tick at a clock time, a tempo change, `play` or `stop`. */
  datatype Event =
    | TimerFired(now: real)
    | TempoChanged(tempo: real)
    | PlayCalled(when: When, now: real)
    | StopCalled

  /** The tempo changes in `es` are all to positive tempos. */
  predicate PositiveTempos(es: seq<Event>) {
    forall k :: 0 <= k < |es| ==> (es[k].TempoChanged? ==> es[k].tempo > 0.0)
  }

  /** One event applied to the sequence, with the commands it sends. */
  function Apply(s: Sequence, e: Event): (r: Step)
    requires s.tempo != 0.0
    requires e.TempoChanged? ==> e.tempo != 0.0
    ensures e.TempoChanged? ==> r.state.tempo == e.tempo
    ensures !e.TempoChanged? ==> r.state.tempo == s.tempo
    ensures |r.state.notes| == |s.notes|
  {
    match e
    case TimerFired(now) => Tick(s, now)
    case TempoChanged(tempo) => Step(SetTempo(s, tempo), [])
    case PlayCalled(when, now) => Play(s, when, now)
    case StopCalled => Step(Stop(s), [])
  }

  /** The events `es` applied in order; the log is every event's commands in
      order. Whatever the order of ticks, positive tempo changes, plays and
      stops, the committed notes stay a prefix and the uncommitted ones stay
      planned in time order. */
  function Run(s: Sequence, es: seq<Event>): (r: Step)
    requires s.tempo != 0.0
    requires forall k :: 0 <= k < |es| ==> (es[k].TempoChanged? ==> es[k].tempo != 0.0)
    ensures |r.state.notes| == |s.notes|
    ensures Orderly(s) && PositiveTempos(es) ==> Orderly(r.state)
    decreases |es|
  {
    if |es| == 0 then Step(s, [])
    else
      var first := Apply(s, es[0]);
      assert Orderly(s) && PositiveTempos(es) ==> Orderly(first.state) && PositiveTempos(es[1..]) by {
        if Orderly(s) && PositiveTempos(es) {
          ApplyKeepsOrderly(s, es[0]);
          PositiveTemposTail(es);
        }
      }
      var rest := Run(first.state, es[1..]);
      Step(rest.state, first.log + rest.log)
  }

  /** Dropping the first event keeps every tempo change positive. */
  lemma PositiveTemposTail(es: seq<Event>)
    requires |es| > 0 && PositiveTempos(es)
    ensures PositiveTempos(es[1..])
  {
    forall k | 0 <= k < |es| - 1
      ensures es[1..][k].TempoChanged? ==> es[1..][k].tempo > 0.0
    {
      assert es[1..][k] == es[k + 1];
    }
  }

  /** One event keeps the scheduler's invariant. */
  lemma ApplyKeepsOrderly(s: Sequence, e: Event)
    requires Orderly(s)
    requires e.TempoChanged? ==> e.tempo > 0.0
    ensures Orderly(Apply(s, e).state)
  {
    match e
    case TimerFired(now) =>
      if s.active { ScheduleKeepsOrderly(s, now); }
    case TempoChanged(tempo) =>
      SetTempoKeepsOrderly(s, tempo);
    case PlayCalled(when, now) =>
      PlayOrderly(s, when, now);
    case StopCalled =>
  }

  /** A stopped sequence stays silent and unchanged under any number of
      timer ticks. */
  lemma {:induction false} StoppedTicksAreSilent(s: Sequence, es: seq<Event>)
    requires s.tempo != 0.0
    requires !s.active
    requires forall k :: 0 <= k < |es| ==> es[k].TimerFired?
    ensures Run(s, es) == Step(s, [])
    decreases |es|
  {
    if |es| > 0 {
      assert Apply(s, es[0]) == Step(s, []);
      StoppedTicksAreSilent(s, es[1..]);
    }
  }
}

=== FILE: notes.dfy ===
/**
  The data model of a TinyMusic sequence: the notes it plays, the scheduling
  state the player keeps on each note, and the sequence's playback settings.
 */
module Notes {

  /** A note: `frequency` in hertz (0 encodes a rest), `duration` in beats,
      and the player's bookkeeping: whether the note's audio commands have
      been emitted (`scheduled`) and the clock time it is planned to start. */
  datatype Note = Note(frequency: real, duration: real, scheduled: bool, scheduledTime: real)

  /** A sequence: the notes in playback order and the settings that shape them.
      `tempo` is in beats per minute, `smoothing` in beats, `staccato` is the
      fraction of a note silenced at its tail, `startTime` the clock time the
      current pass began, and `active` says an oscillator is attached and the
      polling timer is running. */
  datatype Sequence = Sequence(
    notes: seq<Note>,
    tempo: real,
    loop: bool,
    smoothing: real,
    staccato: real,
    startTime: real,
    active: bool
  )

  /** The committed notes form a prefix of the sequence. */
  predicate CommittedPrefix(ns: seq<Note>) {
    forall i, j :: 0 <= i < j < |ns| && ns[j].scheduled ==> ns[i].scheduled
  }

  /** The uncommitted notes are planned in non-decreasing time order. */
  predicate TailOrdered(ns: seq<Note>) {
    forall i, j :: 0 <= i < j < |ns| && !ns[i].scheduled ==> ns[i].scheduledTime <= ns[j].scheduledTime
  }

  /** `a` and `b` hold the same notes (frequency and length) in the same order. */
  predicate SameTune(a: seq<Note>, b: seq<Note>) {
    && |a| == |b|
    && forall j :: 0 <= j < |a| ==> a[j].frequency == b[j].frequency && a[j].duration == b[j].duration
  }

  /** Everything about `a` and `b` that decides how a note sounds agrees;
      only the per-note scheduling state may differ. */
  predicate SameScore(a: Sequence, b: Sequence) {
    && a.tempo == b.tempo
    && a.loop == b.loop
    && a.smoothing == b.smoothing
    && a.staccato == b.staccato
    && SameTune(a.notes, b.notes)
  }

  /** `a` and `b` have the same settings and the same number of notes. */
  predicate SameSettings(a: Sequence, b: Sequence) {
    && a.tempo == b.tempo
    && a.loop == b.loop
    && a.smoothing == b.smoothing
    && a.staccato == b.staccato
    && |a.notes| == |b.notes|
  }

  /** The number of committed notes (the `filter(...).length` count). */
  function CountScheduled(ns: seq<Note>): (k: nat)
    ensures k <= |ns|
    ensures k == |ns| <==> forall j :: 0 <= j < |ns| ==> ns[j].scheduled
    ensures k == 0 <==> forall j :: 0 <= j < |ns| ==> !ns[j].scheduled
  {
    if |ns| == 0 then 0
    else CountScheduled(ns[..|ns| - 1]) + (if ns[|ns| - 1].scheduled then 1 else 0)
  }

  /** The count of a concatenation is the sum of the counts; with the
      one-note cases of `CountScheduled`'s contract this pins the count of
      every sequence. */
  lemma {:induction false} CountScheduledAppend(a: seq<Note>, b: seq<Note>)
    ensures CountScheduled(a + b) == CountScheduled(a) + CountScheduled(b)
    decreases |b|
  {
    if |b| == 0 {
      assert a + b == a;
    } else {
      assert (a + b)[..|a + b| - 1] == a + b[..|b| - 1];
      CountScheduledAppend(a, b[..|b| - 1]);
    }
  }

  /** When the committed notes form a prefix, the count is that prefix's length. */
  lemma {:induction false} CountIsPrefixLength(ns: seq<Note>)
    requires CommittedPrefix(ns)
    ensures forall j :: 0 <= j < |ns| ==> (ns[j].scheduled <==> j < CountScheduled(ns))
  {
    if |ns| > 0 {
      var init := ns[..|ns| - 1];
      assert CommittedPrefix(init);
      CountIsPrefixLength(init);
      assert forall j :: 0 <= j < |init| ==> init[j] == ns[j];
    }
  }

  /** Taking the same prefix of two sequences holding the same notes gives
      sequences holding the same notes. */
  lemma SameTunePrefix(a: seq<Note>, b: seq<Note>, j: nat)
    requires SameTune(a, b)
    requires j <= |a|
    ensures SameTune(a[..j], b[..j])
  {
  }
}

=== FILE: planner.dfy ===
/**
  Planning: assigning each not-yet-committed note its start time at the
  current tempo (`planTimingsForRemainingNotes`, src/Sequence.js:89-97).
 */
module Planner {
  import opened Notes
  import opened Timing

  /** Total length in seconds of the notes `ns` played back to back. */
  function Span(tempo: real, ns: seq<Note>): real
    requires tempo != 0.0
  {
    if |ns| == 0 then 0.0 else NoteSeconds(tempo, ns[0].duration) + Span(tempo, ns[1..])
  }

  lemma {:induction false} SpanAppend(tempo: real, a: seq<Note>, b: seq<Note>)
    requires tempo != 0.0
    ensures Span(tempo, a + b) == Span(tempo, a) + Span(tempo, b)
  {
    if |a| > 0 {
      assert (a + b)[1..] == a[1..] + b;
      SpanAppend(tempo, a[1..], b);
    } else {
      assert a + b == b;
    }
  }

  /** The span depends only on the notes' durations. */
  lemma {:induction false} SpanSameTune(tempo: real, a: seq<Note>, b: seq<Note>)
    requires tempo != 0.0
    requires SameTune(a, b)
    ensures Span(tempo, a) == Span(tempo, b)
  {
    if |a| > 0 {
      SpanSameTune(tempo, a[1..], b[1..]);
    }
  }

  lemma {:induction false} SpanNonNegative(tempo: real, ns: seq<Note>)
    requires tempo > 0.0
    requires forall j :: 0 <= j < |ns| ==> ns[j].duration >= 0.0
    ensures Span(tempo, ns) >= 0.0
  {
    if |ns| > 0 {
      SpanNonNegative(tempo, ns[1..]);
    }
  }

  /** With non-negative durations, a longer slice from the same start never
      ends earlier. */
  lemma SpanSliceMonotone(tempo: real, ns: seq<Note>, k: nat, i: nat, j: nat)
    requires tempo > 0.0
    requires forall m :: 0 <= m < |ns| ==> ns[m].duration >= 0.0
    requires k <= i <= j <= |ns|
    ensures Span(tempo, ns[k..i]) <= Span(tempo, ns[k..j])
  {
    assert ns[k..j] == ns[k..i] + ns[i..j];
    SpanAppend(tempo, ns[k..i], ns[i..j]);
    SpanNonNegative(tempo, ns[i..j]);
  }

  /** The whole span is the span of all but the last note plus the last note. */
  lemma SpanLast(tempo: real, ns: seq<Note>)
    requires tempo != 0.0
    requires |ns| > 0
    ensures Span(tempo, ns) == Span(tempo, ns[..|ns| - 1]) + NoteSeconds(tempo, ns[|ns| - 1].duration)
  {
    assert ns == ns[..|ns| - 1] + [ns[|ns| - 1]];
    SpanAppend(tempo, ns[..|ns| - 1], [ns[|ns| - 1]]);
  }

  /** Extending a slice by one note adds that note's length. */
  lemma SpanSliceStep(tempo: real, ns: seq<Note>, k: nat, j: nat)
    requires tempo != 0.0
    requires k <= j < |ns|
    ensures Span(tempo, ns[k..j + 1]) == Span(tempo, ns[k..j]) + NoteSeconds(tempo, ns[j].duration)
  {
    assert ns[k..j + 1] == ns[k..j] + [ns[j]];
    SpanAppend(tempo, ns[k..j], [ns[j]]);
  }

  /** A planned run of notes and the time just after its last note. */
  datatype Plan = Plan(notes: seq<Note>, end: real)

  /** Plans `ns` back to back from `when`: every note becomes uncommitted
      and starts where the notes before it end (`PlanFromAt`); the run ends
      the notes' total length after `when`. */
  function PlanFrom(ns: seq<Note>, tempo: real, when: real): (r: Plan)
    requires tempo != 0.0
    ensures |r.notes| == |ns|
    ensures r.end == when + Span(tempo, ns)
    decreases |ns|
  {
    if |ns| == 0 then Plan([], when)
    else
      var rest := PlanFrom(ns[1..], tempo, when + NoteSeconds(tempo, ns[0].duration));
      Plan([ns[0].(scheduled := false, scheduledTime := when)] + rest.notes, rest.end)
  }

  /** Note `j` of a plan: uncommitted, starting after the notes before it. */
  lemma {:induction false} PlanFromAt(ns: seq<Note>, tempo: real, when: real, j: nat)
    requires tempo != 0.0
    requires j < |ns|
    ensures PlanFrom(ns, tempo, when).notes[j]
         == ns[j].(scheduled := false, scheduledTime := when + Span(tempo, ns[..j]))
    decreases j
  {
    if j == 0 {
      assert ns[..0] == [];
    } else {
      PlanFromAt(ns[1..], tempo, when + NoteSeconds(tempo, ns[0].duration), j - 1);
      assert ns[..j][1..] == ns[1..][..j - 1];
    }
  }

  /** A plan keeps every note's frequency and length. */
  lemma PlanFromKeepsTune(ns: seq<Note>, tempo: real, when: real)
    requires tempo != 0.0
    ensures SameTune(PlanFrom(ns, tempo, when).notes, ns)
  {
    forall j | 0 <= j < |ns| {
      PlanFromAt(ns, tempo, when, j);
    }
  }

  /** A plan depends only on the notes' frequencies and lengths. */
  lemma {:induction false} PlanFromSameTune(ns: seq<Note>, ms: seq<Note>, tempo: real, when: real)
    requires tempo != 0.0
    requires SameTune(ns, ms)
    ensures PlanFrom(ns, tempo, when) == PlanFrom(ms, tempo, when)
    decreases |ns|
  {
    if |ns| > 0 {
      assert SameTune(ns[1..], ms[1..]);
      PlanFromSameTune(ns[1..], ms[1..], tempo, when + NoteSeconds(tempo, ns[0].duration));
    }
  }

  /** In a plan, each note starts where the planned notes before it end. */
  lemma PlanFromContiguous(ns: seq<Note>, tempo: real, when: real)
    requires tempo != 0.0
    ensures var p := PlanFrom(ns, tempo, when).notes;
      forall j :: 0 <= j < |p| ==> p[j].scheduledTime == when + Span(tempo, p[..j])
  {
    var p := PlanFrom(ns, tempo, when).notes;
    PlanFromKeepsTune(ns, tempo, when);
    forall j | 0 <= j < |p|
      ensures p[j].scheduledTime == when + Span(tempo, p[..j])
    {
      PlanFromAt(ns, tempo, when, j);
      SameTunePrefix(p, ns, j);
      SpanSameTune(tempo, p[..j], ns[..j]);
    }
  }

  /** The sequence after re-planning, and the end time of its last note. */
  datatype Replanned = Replanned(state: Sequence, end: real)

  /** `planTimingsForRemainingNotes(startIndex, when)`: the notes from
      `startIndex` on are planned back to back from `when` at the current
      tempo and the ones before it are left alone (`PlanTimingsAt`); nothing
      but the notes changes, and the plan ends the remaining notes' length
      after `when`. Like `Array.slice`, an index past the end plans nothing. */
  function PlanTimings(s: Sequence, startIndex: nat, when: real): (r: Replanned)
    requires s.tempo != 0.0
    ensures r.state == s.(notes := r.state.notes)
    ensures |r.state.notes| == |s.notes|
    ensures startIndex <= |s.notes| ==> r.end == when + Span(s.tempo, s.notes[startIndex..])
    ensures startIndex >= |s.notes| ==> r.end == when
  {
    var k := if startIndex <= |s.notes| then startIndex else |s.notes|;
    var p := PlanFrom(s.notes[k..], s.tempo, when);
    assert k == |s.notes| ==> s.notes[k..] == [];
    Replanned(s.(notes := s.notes[..k] + p.notes), p.end)
  }

  /** Note `j` after `PlanTimings`: untouched before the start index, and
      from it on uncommitted and starting after the re-planned notes before
      it. */
  lemma PlanTimingsAt(s: Sequence, startIndex: nat, when: real, j: nat)
    requires s.tempo != 0.0
    requires j < |s.notes|
    ensures j < startIndex ==> PlanTimings(s, startIndex, when).state.notes[j] == s.notes[j]
    ensures startIndex <= j ==>
      PlanTimings(s, startIndex, when).state.notes[j]
      == s.notes[j].(scheduled := false, scheduledTime := when + Span(s.tempo, s.notes[startIndex..j]))
  {
    var k := if startIndex <= |s.notes| then startIndex else |s.notes|;
    var p := PlanFrom(s.notes[k..], s.tempo, when);
    var planned := s.notes[..k] + p.notes;
    assert PlanTimings(s, startIndex, when).state.notes == planned;
    if j < k {
      assert planned[j] == s.notes[j];
    } else {
      PlanFromAt(s.notes[k..], s.tempo, when, j - k);
      assert planned[j] == p.notes[j - k];
      assert s.notes[k..][j - k] == s.notes[j];
      assert s.notes[k..][..j - k] == s.notes[k..j];
    }
  }

  /** `PlanTimingsAt` for every note at once. */
  lemma PlanTimingsSpec(s: Sequence, startIndex: nat, when: real)
    requires s.tempo != 0.0
    ensures var r := PlanTimings(s, startIndex, when).state;
      && (forall j :: 0 <= j < |s.notes| && j < startIndex ==> r.notes[j] == s.notes[j])
      && (forall j :: startIndex <= j < |s.notes| ==>
            r.notes[j] == s.notes[j].(scheduled := false,
                                      scheduledTime := when + Span(s.tempo, s.notes[startIndex..j])))
  {
    forall j | 0 <= j < |s.notes| {
      PlanTimingsAt(s, startIndex, when, j);
    }
  }

  /** Planning changes no note's frequency or length. */
  lemma PlanTimingsSameTune(s: Sequence, startIndex: nat, when: real)
    requires s.tempo != 0.0
    ensures SameTune(PlanTimings(s, startIndex, when).state.notes, s.notes)
  {
    forall j | 0 <= j < |s.notes| {
      PlanTimingsAt(s, startIndex, when, j);
    }
  }

  /** `PlanTimings` keeps the notes before the (clamped) start index and
      replaces the rest by their plan. */
  lemma PlanTimingsIsPlanFrom(s: Sequence, startIndex: nat, when: real)
    requires s.tempo != 0.0
    ensures var k := if startIndex <= |s.notes| then startIndex else |s.notes|;
      var p := PlanFrom(s.notes[k..], s.tempo, when);
      PlanTimings(s, startIndex, when) == Replanned(s.(notes := s.notes[..k] + p.notes), p.end)
  {
  }

  /** Planning twice with the same arguments gives the same state. */
  lemma PlanTimingsIdempotent(s: Sequence, startIndex: nat, when: real)
    requires s.tempo != 0.0
    ensures PlanTimings(PlanTimings(s, startIndex, when).state, startIndex, when) == PlanTimings(s, startIndex, when)
  {
    var k := if startIndex <= |s.notes| then startIndex else |s.notes|;
    var p := PlanFrom(s.notes[k..], s.tempo, when);
    var once := PlanTimings(s, startIndex, when);
    PlanTimingsIsPlanFrom(s, startIndex, when);
    PlanTimingsIsPlanFrom(once.state, startIndex, when);
    assert once.state.notes[..k] == s.notes[..k];
    assert once.state.notes[k..] == p.notes;
    PlanFromKeepsTune(s.notes[k..], s.tempo, when);
    PlanFromSameTune(p.notes, s.notes[k..], s.tempo, when);
  }

  /** Planning from the first note forgets every note's previous scheduling
      state: two sequences with the same score and settings plan identically. */
  lemma PlanAllForgetsSchedule(a: Sequence, b: Sequence, when: real)
    requires a.tempo != 0.0
    requires SameScore(a, b) && a.startTime == b.startTime && a.active == b.active
    ensures PlanTimings(a, 0, when).state == PlanTimings(b, 0, when).state
  {
    assert a.notes[0..] == a.notes && b.notes[0..] == b.notes;
    PlanFromSameTune(a.notes, b.notes, a.tempo, when);
  }

  /** A plan from the first note starts every note where the planned notes
      before it end. */
  lemma PlanAllContiguous(s: Sequence, when: real)
    requires s.tempo != 0.0
    ensures var p := PlanTimings(s, 0, when).state.notes;
      forall j :: 0 <= j < |p| ==> p[j].scheduledTime == when + Span(s.tempo, p[..j])
  {
    assert s.notes[0..] == s.notes && s.notes[..0] == [];
    assert PlanTimings(s, 0, when).state.notes == PlanFrom(s.notes, s.tempo, when).notes;
    PlanFromContiguous(s.notes, s.tempo, when);
  }

  /** With non-negative durations, a plan from the first note starts later
      notes no earlier than earlier ones. */
  lemma PlanAllMonotone(s: Sequence, when: real, i: nat, j: nat)
    requires s.tempo > 0.0
    requires forall k :: 0 <= k < |s.notes| ==> s.notes[k].duration >= 0.0
    requires i < j < |s.notes|
    ensures PlanTimings(s, 0, when).state.notes[i].scheduledTime
         <= PlanTimings(s, 0, when).state.notes[j].scheduledTime
  {
    PlanTimingsAt(s, 0, when, i);
    PlanTimingsAt(s, 0, when, j);
    SpanSliceMonotone(s.tempo, s.notes, 0, i, j);
  }

  /** A plan from the first note leaves every note uncommitted, in
      non-decreasing time order. */
  lemma PlanAllOrdered(s: Sequence, when: real)
    requires s.tempo > 0.0
    requires forall j :: 0 <= j < |s.notes| ==> s.notes[j].duration >= 0.0
    ensures CommittedPrefix(PlanTimings(s, 0, when).state.notes)
    ensures TailOrdered(PlanTimings(s, 0, when).state.notes)
  {
    var p := PlanTimings(s, 0, when).state.notes;
    assert CommittedPrefix(p) by {
      forall j | 0 <= j < |p|
        ensures !p[j].scheduled
      {
        PlanTimingsAt(s, 0, when, j);
      }
    }
    assert TailOrdered(p) by {
      forall i, j | 0 <= i < j < |p|
        ensures p[i].scheduledTime <= p[j].scheduledTime
      {
        PlanAllMonotone(s, when, i, j);
      }
    }
  }
}

=== FILE: scheduler.dfy ===
/**
  The lookahead scheduler: the `schedule` closure that `play` runs
  immediately and then on every timer tick (src/Sequence.js:148-166).
  Each tick reads the clock once; here that reading is the `now` argument.
 */
module Scheduler {
  import opened Notes
  import opened Timing
  import opened Planner
  import opened Emitter

  /** How far ahead of the clock a note is committed, in seconds. */
  const Lookahead: real := 0.1

  /** A sequence after an operation, and the commands the operation sent to
      the oscillator, in order. */
  datatype Step = Step(state: Sequence, log: seq<Command>)

  /** Note `j` is not yet committed and starts within the lookahead window. */
  predicate Due(s: Sequence, now: real, j: nat)
    requires j < |s.notes|
  {
    !s.notes[j].scheduled && s.notes[j].scheduledTime <= now + Lookahead
  }

  /** Marks note `index` as committed; nothing that decides how a note
      sounds changes. */
  function Commit(s: Sequence, index: nat): (r: Sequence)
    requires index < |s.notes|
    ensures SameScore(r, s)
  {
    s.(notes := s.notes[index := s.notes[index].(scheduled := true)])
  }

  /** The scheduling pass over the notes from index `i` on. On committing the
      last note it either re-plans the whole sequence from that note's end
      (looping) or stops the oscillator there. */
  function ScheduleFrom(s: Sequence, i: nat, now: real): (r: Step)
    requires s.tempo != 0.0
    requires i <= |s.notes|
    ensures SameSettings(r.state, s) && r.state.active == s.active
    decreases |s.notes| - i
  {
    if i == |s.notes| then Step(s, [])
    else if !Due(s, now, i) then ScheduleFrom(s, i + 1, now)
    else
      var e := ScheduleNote(s, i, s.notes[i].scheduledTime);
      var committed := Commit(s, i);
      if i < |s.notes| - 1 then
        var rest := ScheduleFrom(committed, i + 1, now);
        Step(rest.state, e.cmds + rest.log)
      else FinishPass(committed, e)
  }

  /** Committing the last note ends the pass at that note's end `e.end`: a
      looping sequence starts its next pass there, with every note re-planned
      from it; otherwise the oscillator is stopped there. */
  function FinishPass(s: Sequence, e: Emission): (r: Step)
    requires s.tempo != 0.0
    ensures SameSettings(r.state, s) && r.state.active == s.active
  {
    if s.loop then
      PlanTimingsSameTune(s.(startTime := e.end), 0, e.end);
      Step(PlanTimings(s.(startTime := e.end), 0, e.end).state, e.cmds)
    else
      Step(s, e.cmds + [StopOsc(e.end)])
  }

  /** One run of the `schedule` closure at clock time `now`. */
  function Schedule(s: Sequence, now: real): (r: Step)
    requires s.tempo != 0.0
    ensures SameSettings(r.state, s) && r.state.active == s.active
  {
    ScheduleFrom(s, 0, now)
  }

  /** One firing of the polling timer: it exists only while the sequence is
      playing, so a stopped sequence is left alone. */
  function Tick(s: Sequence, now: real): (r: Step)
    requires s.tempo != 0.0
    ensures !s.active ==> r == Step(s, [])
  {
    if s.active then Schedule(s, now) else Step(s, [])
  }

  // ---------------------------------------------------------------------
  // Reference definitions: what a pass does, stated without threading state.
  // ---------------------------------------------------------------------

  /** The commands of every due note from index `i` on, in index order. */
  function DueLog(s: Sequence, now: real, i: nat): seq<Command>
    requires s.tempo != 0.0
    requires i <= |s.notes|
    decreases |s.notes| - i
  {
    if i == |s.notes| then []
    else
      (if Due(s, now, i) then ScheduleNote(s, i, s.notes[i].scheduledTime).cmds else [])
      + DueLog(s, now, i + 1)
  }

  /** `s` with every due note from index `i` on marked committed. */
  function CommitDue(s: Sequence, now: real, i: nat): (r: Sequence)
    ensures r == s.(notes := r.notes)
    ensures |r.notes| == |s.notes|
    ensures forall j :: 0 <= j < |s.notes| ==>
      r.notes[j] == if i <= j && Due(s, now, j) then s.notes[j].(scheduled := true) else s.notes[j]
  {
    s.(notes := seq(|s.notes|, j requires 0 <= j < |s.notes| =>
      if i <= j && Due(s, now, j) then s.notes[j].(scheduled := true) else s.notes[j]))
  }

  /** A pass from index `i` reaches and commits the last note. */
  predicate WrapsFrom(s: Sequence, now: real, i: nat) {
    i < |s.notes| && Due(s, now, |s.notes| - 1)
  }

  /** The clock time the last note ends, as planned. */
  function PassEnd(s: Sequence): real
    requires s.tempo != 0.0
    requires |s.notes| > 0
  {
    var last := s.notes[|s.notes| - 1];
    last.scheduledTime + NoteSeconds(s.tempo, last.duration)
  }

  /** Every note starts exactly where the notes before it end, counted from
      the start of the current pass. */
  predicate Contiguous(s: Sequence)
    requires s.tempo != 0.0
  {
    forall j :: 0 <= j < |s.notes| ==> s.notes[j].scheduledTime == s.startTime + Span(s.tempo, s.notes[..j])
  }

  /** The state the scheduler keeps: a positive tempo, notes of non-negative
      length, committed notes forming a prefix and the rest planned in order. */
  predicate Orderly(s: Sequence) {
    && s.tempo > 0.0
    && (forall j :: 0 <= j < |s.notes| ==> s.notes[j].duration >= 0.0)
    && CommittedPrefix(s.notes)
    && TailOrdered(s.notes)
  }

  // ---------------------------------------------------------------------
  // Helper lemmas about the reference definitions.
  // ---------------------------------------------------------------------

  lemma {:induction false} DueLogFrame(a: Sequence, b: Sequence, now: real, i: nat)
    requires a.tempo != 0.0
    requires SameScore(a, b)
    requires i <= |a.notes|
    requires forall j :: i <= j < |a.notes| ==> a.notes[j] == b.notes[j]
    ensures DueLog(a, now, i) == DueLog(b, now, i)
    decreases |a.notes| - i
  {
    if i < |a.notes| {
      DueLogFrame(a, b, now, i + 1);
      ScheduleNoteIgnoresSchedule(a, b, i, a.notes[i].scheduledTime);
    }
  }

  lemma {:induction false} DueLogIdle(s: Sequence, now: real, i: nat)
    requires s.tempo != 0.0
    requires i <= |s.notes|
    requires forall j :: i <= j < |s.notes| ==> !Due(s, now, j)
    ensures DueLog(s, now, i) == []
    decreases |s.notes| - i
  {
    if i < |s.notes| {
      DueLogIdle(s, now, i + 1);
    }
  }

  lemma {:induction false} DueLogHasNoStop(s: Sequence, now: real, i: nat)
    requires s.tempo != 0.0
    requires i <= |s.notes|
    ensures forall c :: c in DueLog(s, now, i) ==> c.SetFreq? || c.Ramp?
    decreases |s.notes| - i
  {
    if i < |s.notes| {
      DueLogHasNoStop(s, now, i + 1);
    }
  }

  lemma CommitDueNone(s: Sequence, now: real)
    ensures CommitDue(s, now, |s.notes|) == s
  {
    assert CommitDue(s, now, |s.notes|).notes == s.notes;
  }

  lemma CommitDueSkip(s: Sequence, now: real, i: nat)
    requires i < |s.notes| && !Due(s, now, i)
    ensures CommitDue(s, now, i) == CommitDue(s, now, i + 1)
  {
    assert CommitDue(s, now, i).notes == CommitDue(s, now, i + 1).notes;
  }

  lemma CommitDueStep(s: Sequence, now: real, i: nat)
    requires i < |s.notes| && Due(s, now, i)
    ensures CommitDue(Commit(s, i), now, i + 1) == CommitDue(s, now, i)
  {
    var c := Commit(s, i);
    forall j | 0 <= j < |s.notes|
      ensures CommitDue(c, now, i + 1).notes[j] == CommitDue(s, now, i).notes[j]
    {
      if j != i {
        assert c.notes[j] == s.notes[j];
      }
    }
    assert CommitDue(c, now, i + 1).notes == CommitDue(s, now, i).notes;
  }

  lemma CommitDueLast(s: Sequence, now: real)
    requires |s.notes| > 0 && Due(s, now, |s.notes| - 1)
    ensures CommitDue(s, now, |s.notes| - 1) == Commit(s, |s.notes| - 1)
  {
    assert CommitDue(s, now, |s.notes| - 1).notes == Commit(s, |s.notes| - 1).notes;
  }

  /** What `ScheduleFrom(s, i, now)` is, by the reference definitions. */
  predicate PassMatches(s: Sequence, i: nat, now: real, r: Step)
    requires s.tempo != 0.0
    requires i <= |s.notes|
  {
    && (!WrapsFrom(s, now, i) ==> r == Step(CommitDue(s, now, i), DueLog(s, now, i)))
    && (WrapsFrom(s, now, i) && !s.loop ==>
          r == Step(CommitDue(s, now, i), DueLog(s, now, i) + [StopOsc(PassEnd(s))]))
    && (WrapsFrom(s, now, i) && s.loop ==>
          r == Step(PlanTimings(s.(startTime := PassEnd(s)), 0, PassEnd(s)).state, DueLog(s, now, i)))
  }

  /** Facts shared by the three cases of committing a due inner note. */
  lemma CommitInnerFacts(s: Sequence, i: nat, now: real)
    requires s.tempo != 0.0
    requires i < |s.notes| - 1 && Due(s, now, i)
    ensures ScheduleFrom(s, i, now)
         == var rest := ScheduleFrom(Commit(s, i), i + 1, now);
            Step(rest.state, ScheduleNote(s, i, s.notes[i].scheduledTime).cmds + rest.log)
    ensures DueLog(s, now, i) == ScheduleNote(s, i, s.notes[i].scheduledTime).cmds + DueLog(Commit(s, i), now, i + 1)
    ensures WrapsFrom(Commit(s, i), now, i + 1) == WrapsFrom(s, now, i)
    ensures PassEnd(Commit(s, i)) == PassEnd(s)
    ensures Commit(s, i).loop == s.loop
  {
    assert SameScore(Commit(s, i), s);
    DueLogFrame(Commit(s, i), s, now, i + 1);
  }

  lemma CommitInnerPlain(s: Sequence, i: nat, now: real, rest: Step)
    requires s.tempo != 0.0
    requires i < |s.notes| - 1 && Due(s, now, i)
    requires !WrapsFrom(s, now, i)
    requires rest == ScheduleFrom(Commit(s, i), i + 1, now)
    requires rest == Step(CommitDue(Commit(s, i), now, i + 1), DueLog(Commit(s, i), now, i + 1))
    ensures ScheduleFrom(s, i, now) == Step(CommitDue(s, now, i), DueLog(s, now, i))
  {
    CommitInnerFacts(s, i, now);
    CommitDueStep(s, now, i);
  }

  lemma CommitInnerStop(s: Sequence, i: nat, now: real, rest: Step)
    requires s.tempo != 0.0
    requires i < |s.notes| - 1 && Due(s, now, i)
    requires WrapsFrom(s, now, i) && !s.loop
    requires rest == ScheduleFrom(Commit(s, i), i + 1, now)
    requires rest == Step(CommitDue(Commit(s, i), now, i + 1), DueLog(Commit(s, i), now, i + 1) + [StopOsc(PassEnd(s))])
    ensures ScheduleFrom(s, i, now) == Step(CommitDue(s, now, i), DueLog(s, now, i) + [StopOsc(PassEnd(s))])
  {
    CommitInnerFacts(s, i, now);
    CommitDueStep(s, now, i);
  }

  lemma CommitInnerWrap(s: Sequence, i: nat, now: real, rest: Step)
    requires s.tempo != 0.0
    requires i < |s.notes| - 1 && Due(s, now, i)
    requires WrapsFrom(s, now, i) && s.loop
    requires rest == ScheduleFrom(Commit(s, i), i + 1, now)
    requires rest == Step(PlanTimings(Commit(s, i).(startTime := PassEnd(s)), 0, PassEnd(s)).state,
                          DueLog(Commit(s, i), now, i + 1))
    ensures ScheduleFrom(s, i, now)
         == Step(PlanTimings(s.(startTime := PassEnd(s)), 0, PassEnd(s)).state, DueLog(s, now, i))
  {
    CommitInnerFacts(s, i, now);
    var end := PassEnd(s);
    var c := Commit(s, i);
    var e := ScheduleNote(s, i, s.notes[i].scheduledTime);
    assert rest.state == PlanTimings(s.(startTime := end), 0, end).state by {
      assert SameScore(c.(startTime := end), s.(startTime := end));
      PlanAllForgetsSchedule(c.(startTime := end), s.(startTime := end), end);
    }
    assert DueLog(s, now, i) == e.cmds + rest.log;
  }

  /** Committing a due note that is not the last, given the rest of the pass. */
  lemma CommitInnerMatches(s: Sequence, i: nat, now: real)
    requires s.tempo != 0.0
    requires i < |s.notes| - 1 && Due(s, now, i)
    requires PassMatches(Commit(s, i), i + 1, now, ScheduleFrom(Commit(s, i), i + 1, now))
    ensures PassMatches(s, i, now, ScheduleFrom(s, i, now))
  {
    var rest := ScheduleFrom(Commit(s, i), i + 1, now);
    CommitInnerFacts(s, i, now);
    if !WrapsFrom(s, now, i) {
      CommitInnerPlain(s, i, now, rest);
    } else if !s.loop {
      CommitInnerStop(s, i, now, rest);
    } else {
      CommitInnerWrap(s, i, now, rest);
    }
  }

  /** Committing the last note. */
  lemma CommitLastMatches(s: Sequence, now: real)
    requires s.tempo != 0.0
    requires |s.notes| > 0 && Due(s, now, |s.notes| - 1)
    ensures PassMatches(s, |s.notes| - 1, now, ScheduleFrom(s, |s.notes| - 1, now))
  {
    var i := |s.notes| - 1;
    var c := Commit(s, i);
    var e := ScheduleNote(s, i, s.notes[i].scheduledTime);
    assert e.end == PassEnd(s);
    assert DueLog(s, now, i) == e.cmds + DueLog(s, now, i + 1);
    assert DueLog(s, now, i) == e.cmds;
    CommitDueLast(s, now);
    assert SameScore(c, s);
    PlanAllForgetsSchedule(c.(startTime := e.end), s.(startTime := e.end), e.end);
  }

  /** The pass from index `i`, characterised by the reference definitions. */
  lemma {:induction false} ScheduleFromSpec(s: Sequence, i: nat, now: real)
    requires s.tempo != 0.0
    requires i <= |s.notes|
    ensures PassMatches(s, i, now, ScheduleFrom(s, i, now))
    decreases |s.notes| - i
  {
    var n := |s.notes|;
    if i == n {
      CommitDueNone(s, now);
    } else if !Due(s, now, i) {
      ScheduleFromSpec(s, i + 1, now);
      CommitDueSkip(s, now, i);
      assert DueLog(s, now, i) == DueLog(s, now, i + 1);
      assert WrapsFrom(s, now, i) == WrapsFrom(s, now, i + 1);
    } else if i < n - 1 {
      ScheduleFromSpec(Commit(s, i), i + 1, now);
      CommitInnerMatches(s, i, now);
    } else {
      CommitLastMatches(s, now);
    }
  }

  // ---------------------------------------------------------------------
  // Properties of one run of the scheduler.
  // ---------------------------------------------------------------------

  /** On a contiguous plan the last note ends at the pass start plus the
      length of the whole sequence. */
  lemma PassEndOfContiguous(s: Sequence)
    requires s.tempo != 0.0
    requires |s.notes| > 0
    requires Contiguous(s)
    ensures PassEnd(s) == s.startTime + Span(s.tempo, s.notes)
  {
    SpanLast(s.tempo, s.notes);
  }

  /** Unless it wraps round to a new pass, a run commits exactly the
      uncommitted notes inside the lookahead window, emits their commands in
      index order, and touches nothing else; a non-looping sequence whose last
      note is committed is then stopped at that note's end. */
  lemma ScheduleCommitsDue(s: Sequence, now: real)
    requires s.tempo != 0.0
    requires !(WrapsFrom(s, now, 0) && s.loop)
    ensures var r := Schedule(s, now);
      && r.state == s.(notes := r.state.notes)
      && |r.state.notes| == |s.notes|
      && (forall j :: 0 <= j < |s.notes| ==>
            r.state.notes[j] == s.notes[j].(scheduled := s.notes[j].scheduled || Due(s, now, j)))
      && (forall j :: 0 <= j < |s.notes| && s.notes[j].scheduled ==> r.state.notes[j] == s.notes[j])
      && (!WrapsFrom(s, now, 0) ==> r.log == DueLog(s, now, 0))
      && (WrapsFrom(s, now, 0) ==> r.log == DueLog(s, now, 0) + [StopOsc(PassEnd(s))])
  {
    ScheduleFromSpec(s, 0, now);
  }

  /** `CommitDue` from the first note leaves nothing due. */
  lemma CommitDueLeavesNothingDue(s: Sequence, now: real)
    ensures forall j :: 0 <= j < |s.notes| ==> !Due(CommitDue(s, now, 0), now, j)
  {
  }

  /** A run with no note in the window changes nothing and emits nothing. */
  lemma ScheduleIdle(s: Sequence, now: real)
    requires s.tempo != 0.0
    requires forall j :: 0 <= j < |s.notes| ==> !Due(s, now, j)
    ensures Schedule(s, now) == Step(s, [])
  {
    ScheduleFromSpec(s, 0, now);
    DueLogIdle(s, now, 0);
    assert CommitDue(s, now, 0).notes == s.notes;
  }

  /** A run that did not start a new pass has committed everything in the
      window: a second run at the same clock time emits nothing and changes
      nothing, so no note is ever committed twice. */
  lemma ScheduleNeverRecommits(s: Sequence, now: real)
    requires s.tempo != 0.0
    requires !(WrapsFrom(s, now, 0) && s.loop)
    ensures Schedule(Schedule(s, now).state, now) == Step(Schedule(s, now).state, [])
  {
    ScheduleFromSpec(s, 0, now);
    var t := CommitDue(s, now, 0);
    assert Schedule(s, now).state == t;
    CommitDueLeavesNothingDue(s, now);
    ScheduleFromSpec(t, 0, now);
    assert !WrapsFrom(t, now, 0);
    DueLogIdle(t, now, 0);
    assert CommitDue(t, now, 0).notes == t.notes;
  }

  /** Looping, in any state: committing the last note starts the next pass
      exactly where that note ends as planned, with every note uncommitted
      and planned back to back from there. */
  lemma ScheduleLoopRestarts(s: Sequence, now: real)
    requires s.tempo != 0.0
    requires WrapsFrom(s, now, 0) && s.loop
    ensures var r := Schedule(s, now);
      && |r.state.notes| == |s.notes|
      && r.log == DueLog(s, now, 0)
      && r.state.startTime == PassEnd(s)
      && r.state.notes[0].scheduledTime == PassEnd(s)
      && (forall j :: 0 <= j < |r.state.notes| ==> !r.state.notes[j].scheduled)
      && Contiguous(r.state)
      && SameScore(r.state, s)
  {
    ScheduleFromSpec(s, 0, now);
    PlanFromPassStart(s.(startTime := PassEnd(s)));
  }

  /** Looping on a back-to-back plan: the next pass starts at the old pass
      start plus the length of the whole sequence. */
  lemma ScheduleLoopContinues(s: Sequence, now: real)
    requires s.tempo != 0.0
    requires Contiguous(s)
    requires WrapsFrom(s, now, 0) && s.loop
    ensures var r := Schedule(s, now);
      && |r.state.notes| == |s.notes|
      && r.log == DueLog(s, now, 0)
      && r.state.startTime == s.startTime + Span(s.tempo, s.notes)
      && r.state.notes[0].scheduledTime == r.state.startTime
      && (forall j :: 0 <= j < |r.state.notes| ==> !r.state.notes[j].scheduled)
      && Contiguous(r.state)
      && SameScore(r.state, s)
  {
    ScheduleLoopRestarts(s, now);
    PassEndOfContiguous(s);
  }

  /** A looping one-note sequence re-triggers itself exactly one note
      length after its previous start: no gap and no overlap. */
  lemma SingleNoteLoopsWithoutGap(s: Sequence, now: real)
    requires s.tempo != 0.0
    requires |s.notes| == 1 && s.loop
    requires Due(s, now, 0)
    ensures var r := Schedule(s, now);
      && |r.state.notes| == 1
      && !r.state.notes[0].scheduled
      && r.state.notes[0].scheduledTime == s.notes[0].scheduledTime + NoteSeconds(s.tempo, s.notes[0].duration)
  {
    ScheduleLoopRestarts(s, now);
  }

  /** Planning the whole sequence from the start of its pass leaves every
      note uncommitted and back to back from that start. */
  lemma PlanFromPassStart(s: Sequence)
    requires s.tempo != 0.0
    ensures var p := PlanTimings(s, 0, s.startTime).state;
      && p.startTime == s.startTime
      && (|p.notes| > 0 ==> p.notes[0].scheduledTime == p.startTime)
      && (forall j :: 0 <= j < |p.notes| ==> !p.notes[j].scheduled)
      && Contiguous(p)
      && SameScore(p, s)
  {
    var p := PlanTimings(s, 0, s.startTime).state;
    PlanTimingsSameTune(s, 0, s.startTime);
    forall j | 0 <= j < |p.notes|
      ensures !p.notes[j].scheduled
    {
      PlanTimingsAt(s, 0, s.startTime, j);
    }
    if |p.notes| > 0 {
      PlanTimingsAt(s, 0, s.startTime, 0);
      assert s.notes[0..0] == [];
    }
    PlanFromPassStartContiguous(s);
  }

  lemma PlanFromPassStartContiguous(s: Sequence)
    requires s.tempo != 0.0
    ensures Contiguous(PlanTimings(s, 0, s.startTime).state)
  {
    PlanAllContiguous(s, s.startTime);
  }

  /** Not looping, in any state: committing the last note stops the
      oscillator exactly once, where that note ends as planned. */
  lemma ScheduleStopsAtLastNoteEnd(s: Sequence, now: real)
    requires s.tempo != 0.0
    requires WrapsFrom(s, now, 0) && !s.loop
    ensures var r := Schedule(s, now);
      && |r.log| > 0
      && r.log[|r.log| - 1] == StopOsc(PassEnd(s))
      && (forall k :: 0 <= k < |r.log| - 1 ==> !r.log[k].StopOsc?)
  {
    ScheduleFromSpec(s, 0, now);
    DueLogHasNoStop(s, now, 0);
    var r := Schedule(s, now);
    assert r.log == DueLog(s, now, 0) + [StopOsc(PassEnd(s))];
    forall k | 0 <= k < |r.log| - 1
      ensures !r.log[k].StopOsc?
    {
      assert r.log[k] == DueLog(s, now, 0)[k];
      assert DueLog(s, now, 0)[k] in DueLog(s, now, 0);
    }
  }

  /** Not looping, on a back-to-back plan: the single `StopOsc` comes at the pass
      start plus the length of the whole sequence. */
  lemma ScheduleStopsAtEnd(s: Sequence, now: real)
    requires s.tempo != 0.0
    requires Contiguous(s)
    requires WrapsFrom(s, now, 0) && !s.loop
    ensures var r := Schedule(s, now);
      && |r.log| > 0
      && r.log[|r.log| - 1] == StopOsc(s.startTime + Span(s.tempo, s.notes))
      && (forall k :: 0 <= k < |r.log| - 1 ==> !r.log[k].StopOsc?)
  {
    ScheduleStopsAtLastNoteEnd(s, now);
    PassEndOfContiguous(s);
  }

  /** A run keeps every note starting where the notes before it end. */
  lemma ScheduleKeepsContiguous(s: Sequence, now: real)
    requires s.tempo != 0.0
    requires Contiguous(s)
    ensures Contiguous(Schedule(s, now).state)
  {
    if WrapsFrom(s, now, 0) && s.loop {
      ScheduleLoopContinues(s, now);
    } else {
      ScheduleCommitsDue(s, now);
      var r := Schedule(s, now);
      forall j | 0 <= j < |s.notes|
        ensures r.state.notes[j].scheduledTime == r.state.startTime + Span(s.tempo, r.state.notes[..j])
      {
        assert SameTune(r.state.notes[..j], s.notes[..j]);
        SpanSameTune(s.tempo, r.state.notes[..j], s.notes[..j]);
      }
    }
  }

  /** With notes of non-negative length, the committed notes stay a prefix of
      the sequence and the rest stay planned in order: since the uncommitted
      notes are in time order, the ones inside the window come first. */
  lemma ScheduleKeepsOrderly(s: Sequence, now: real)
    requires Orderly(s)
    ensures Orderly(Schedule(s, now).state)
  {
    var r := Schedule(s, now);
    if WrapsFrom(s, now, 0) && s.loop {
      ScheduleFromSpec(s, 0, now);
      var end := PassEnd(s);
      PlanAllOrdered(s.(startTime := end), end);
      PlanTimingsSameTune(s.(startTime := end), 0, end);
    } else {
      ScheduleCommitsDue(s, now);
      var ns := r.state.notes;
      forall i, j | 0 <= i < j < |ns| && ns[j].scheduled
        ensures ns[i].scheduled
      {
        if !s.notes[j].scheduled && !s.notes[i].scheduled {
          assert s.notes[i].scheduledTime <= s.notes[j].scheduledTime;
        }
      }
      assert CommittedPrefix(ns);
    }
  }
}

=== FILE: tempo.dfy ===
/**
  Live tempo changes (`setTempo`, src/Sequence.js:99-109): committed notes
  keep their timing; the uncommitted tail is re-planned at the new tempo.
 */
module Tempo {
  import opened Notes
  import opened Timing
  import opened Planner
  import opened Scheduler

  /** Where `setTempo` re-plans the uncommitted tail from, as the source
      computes it: with `k` notes committed, the length of note `k - 1` at
      the old tempo (not that note's end time); with none committed, the
      start of the current pass. */
  function WrittenAnchor(s: Sequence): (r: real)
    requires s.tempo != 0.0
    ensures CountScheduled(s.notes) == 0 ==> r == s.startTime
    ensures CountScheduled(s.notes) > 0 ==>
      r * s.tempo == 60.0 * s.notes[CountScheduled(s.notes) - 1].duration
  {
    var k := CountScheduled(s.notes);
    if k > 0 then NoteSeconds(s.tempo, s.notes[k - 1].duration) else s.startTime
  }

  /** The notes from the first uncommitted one on, re-planned at `tempo`
      from `anchor`; the tempo is switched first, as the source does. */
  function Retimed(s: Sequence, tempo: real, anchor: real): (r: Sequence)
    requires tempo != 0.0
    ensures r == s.(tempo := tempo, notes := r.notes)
    ensures |r.notes| == |s.notes|
  {
    PlanTimings(s.(tempo := tempo), CountScheduled(s.notes), anchor).state
  }

  /** Note `j` after re-timing: a committed-count prefix is untouched, the
      rest is uncommitted and starts after the re-planned notes before it. */
  lemma RetimedAt(s: Sequence, tempo: real, anchor: real, j: nat)
    requires tempo != 0.0
    requires j < |s.notes|
    ensures var r := Retimed(s, tempo, anchor); var k := CountScheduled(s.notes);
      && r.notes[j].frequency == s.notes[j].frequency
      && r.notes[j].duration == s.notes[j].duration
      && (j < k ==> r.notes[j] == s.notes[j])
      && (k <= j ==> !r.notes[j].scheduled && r.notes[j].scheduledTime == anchor + Span(tempo, s.notes[k..j]))
  {
    PlanTimingsAt(s.(tempo := tempo), CountScheduled(s.notes), anchor, j);
  }

  /** `setTempo(tempo)`: nothing happens when the tempo is unchanged;
      otherwise the tempo is updated first and the notes from index `k` (the
      number of committed notes) on are re-planned at the new tempo from
      `WrittenAnchor` (`SetTempoSpec`). */
  function SetTempo(s: Sequence, tempo: real): (r: Sequence)
    requires s.tempo != 0.0 && tempo != 0.0
    ensures tempo == s.tempo ==> r == s
    ensures r == s.(tempo := tempo, notes := r.notes)
    ensures |r.notes| == |s.notes|
  {
    if tempo == s.tempo then s else Retimed(s, tempo, WrittenAnchor(s))
  }

  /** Note `j` after `setTempo`. */
  lemma SetTempoAt(s: Sequence, tempo: real, j: nat)
    requires s.tempo != 0.0 && tempo != 0.0
    requires j < |s.notes|
    ensures var r := SetTempo(s, tempo); var k := CountScheduled(s.notes);
      && r.notes[j].frequency == s.notes[j].frequency
      && r.notes[j].duration == s.notes[j].duration
      && (j < k ==> r.notes[j] == s.notes[j])
      && (tempo != s.tempo && k <= j ==>
            && !r.notes[j].scheduled
            && r.notes[j].scheduledTime == WrittenAnchor(s) + Span(tempo, s.notes[k..j]))
  {
    if tempo != s.tempo {
      RetimedAt(s, tempo, WrittenAnchor(s), j);
    }
  }

  /** `setTempo` on every note: the tune is unchanged, the `k` committed
      notes are untouched, and when the tempo changes every later note is
      uncommitted and planned back to back at the new tempo from
      `WrittenAnchor`. */
  lemma SetTempoSpec(s: Sequence, tempo: real)
    requires s.tempo != 0.0 && tempo != 0.0
    ensures var r := SetTempo(s, tempo); var k := CountScheduled(s.notes);
      && SameTune(r.notes, s.notes)
      && (forall j :: 0 <= j < k ==> r.notes[j] == s.notes[j])
      && (tempo != s.tempo ==>
            forall j :: k <= j < |s.notes| ==>
              && !r.notes[j].scheduled
              && r.notes[j].scheduledTime == WrittenAnchor(s) + Span(tempo, s.notes[k..j]))
  {
    forall j | 0 <= j < |s.notes| {
      SetTempoAt(s, tempo, j);
    }
  }

  /** Tempo-change isolation: while the committed notes form a prefix, a
      tempo change leaves every committed note exactly as it was and leaves
      every other note uncommitted. */
  lemma SetTempoIsolatesCommitted(s: Sequence, tempo: real)
    requires s.tempo != 0.0 && tempo != 0.0
    requires CommittedPrefix(s.notes)
    ensures var r := SetTempo(s, tempo);
      && (forall j :: 0 <= j < |s.notes| && s.notes[j].scheduled ==> r.notes[j] == s.notes[j])
      && (forall j :: 0 <= j < |s.notes| && !s.notes[j].scheduled ==> !r.notes[j].scheduled)
  {
    CountIsPrefixLength(s.notes);
    forall j | 0 <= j < |s.notes| {
      SetTempoAt(s, tempo, j);
    }
  }

  /** A positive tempo change keeps the scheduler's invariant: the committed
      notes stay a prefix and the re-planned tail is in time order. */
  lemma SetTempoKeepsOrderly(s: Sequence, tempo: real)
    requires Orderly(s)
    requires tempo > 0.0
    ensures Orderly(SetTempo(s, tempo))
  {
    var r := SetTempo(s, tempo);
    if tempo != s.tempo {
      var k := CountScheduled(s.notes);
      CountIsPrefixLength(s.notes);
      forall j | 0 <= j < |r.notes|
        ensures r.notes[j].duration >= 0.0
        ensures r.notes[j].scheduled <==> j < k
      {
        SetTempoAt(s, tempo, j);
      }
      assert TailOrdered(r.notes) by {
        forall i, j | 0 <= i < j < |r.notes| && !r.notes[i].scheduled
          ensures r.notes[i].scheduledTime <= r.notes[j].scheduledTime
        {
          SetTempoTailMonotone(s, tempo, i, j);
        }
      }
    }
  }

  /** Helper for `SetTempoKeepsOrderly`: two re-planned notes keep their order. */
  lemma SetTempoTailMonotone(s: Sequence, tempo: real, i: nat, j: nat)
    requires s.tempo != 0.0 && tempo > 0.0 && tempo != s.tempo
    requires forall m :: 0 <= m < |s.notes| ==> s.notes[m].duration >= 0.0
    requires CountScheduled(s.notes) <= i < j < |s.notes|
    ensures SetTempo(s, tempo).notes[i].scheduledTime <= SetTempo(s, tempo).notes[j].scheduledTime
  {
    SetTempoAt(s, tempo, i);
    SetTempoAt(s, tempo, j);
    SpanSliceMonotone(tempo, s.notes, CountScheduled(s.notes), i, j);
  }

  /** A tempo change before any note is committed re-plans the whole pass at
      the new tempo from the pass start, so the notes stay back to back. */
  lemma SetTempoBeforeCommitReplansPass(s: Sequence, tempo: real)
    requires s.tempo != 0.0 && tempo != 0.0
    requires tempo != s.tempo
    requires forall j :: 0 <= j < |s.notes| ==> !s.notes[j].scheduled
    ensures Contiguous(SetTempo(s, tempo))
  {
    assert CountScheduled(s.notes) == 0;
    PlanFromPassStartContiguous(s.(tempo := tempo));
  }

  /** As written, the whole re-planned tail sits exactly the last committed
      note's start time earlier than where the intended anchor puts it
      (`SetTempoAnchored`): the first re-planned note starts at the last
      committed note's length, not at its end. */
  lemma SetTempoShiftsTail(s: Sequence, tempo: real)
    requires s.tempo != 0.0 && tempo != 0.0
    requires tempo != s.tempo
    requires 0 < CountScheduled(s.notes) <= |s.notes|
    ensures var k := CountScheduled(s.notes);
      forall j :: k <= j < |s.notes| ==>
        SetTempo(s, tempo).notes[j].scheduledTime
        == SetTempoAnchored(s, tempo).notes[j].scheduledTime - s.notes[k - 1].scheduledTime
  {
    var k := CountScheduled(s.notes);
    forall j | k <= j < |s.notes|
      ensures SetTempo(s, tempo).notes[j].scheduledTime
           == SetTempoAnchored(s, tempo).notes[j].scheduledTime - s.notes[k - 1].scheduledTime
    {
      RetimedAt(s, tempo, WrittenAnchor(s), j);
      RetimedAt(s, tempo, IntendedAnchor(s), j);
    }
  }

  /** A tempo change with playback started at clock time 10: at
      120 bpm, note 0 (one beat) is committed and ends at 10.5; changing to
      60 bpm re-plans note 1 to start at 0.5 instead of 10.5. */
  lemma SetTempoGapExample()
    ensures var s := Sequence([Note(440.0, 1.0, true, 10.0), Note(0.0, 1.0, false, 10.5)],
                              120.0, false, 0.0, 0.0, 10.0, true);
      && s.notes[0].scheduledTime + NoteSeconds(120.0, 1.0) == 10.5
      && SetTempoAnchored(s, 60.0).notes[1].scheduledTime == 10.5
      && SetTempo(s, 60.0).notes[1].scheduledTime == 0.5
  {
    var s := Sequence([Note(440.0, 1.0, true, 10.0), Note(0.0, 1.0, false, 10.5)],
                      120.0, false, 0.0, 0.0, 10.0, true);
    assert CommittedPrefix(s.notes);
    assert CountScheduled(s.notes) == 1 by {
      assert s.notes[..1] == [s.notes[0]];
      assert s.notes[..1][..0] == [];
    }
    SetTempoShiftsTail(s, 60.0);
    SetTempoAnchoredContinues(s, 60.0);
  }

  /** After a tempo change with a note committed, the notes are no longer
      back to back from the pass start at the current tempo, with either
      anchor: the committed note keeps its old-tempo timing. */
  lemma SetTempoEndsContiguity()
    ensures var s := Sequence([Note(440.0, 1.0, true, 10.0), Note(0.0, 1.0, false, 10.5)],
                              120.0, false, 0.0, 0.0, 10.0, true);
      && Contiguous(s)
      && !Contiguous(SetTempo(s, 60.0))
      && !Contiguous(SetTempoAnchored(s, 60.0))
  {
    var s := Sequence([Note(440.0, 1.0, true, 10.0), Note(0.0, 1.0, false, 10.5)],
                      120.0, false, 0.0, 0.0, 10.0, true);
    SetTempoGapExample();
    assert s.notes[..1] == [s.notes[0]];
    assert Span(120.0, s.notes[..1]) == 0.5;
    assert Span(60.0, s.notes[..1]) == 1.0;
    assert SetTempo(s, 60.0).notes[..1] == s.notes[..1];
    assert SetTempoAnchored(s, 60.0).notes[..1] == s.notes[..1] by {
      assert CountScheduled(s.notes) == 1 by {
        assert s.notes[..1][..0] == [];
      }
      RetimedAt(s, 60.0, IntendedAnchor(s), 0);
    }
  }

  /** The anchor `setTempo` evidently intends: the end of the last committed
      note at the old tempo. */
  function IntendedAnchor(s: Sequence): real
    requires s.tempo != 0.0
  {
    var k := CountScheduled(s.notes);
    if k > 0 then s.notes[k - 1].scheduledTime + NoteSeconds(s.tempo, s.notes[k - 1].duration)
    else s.startTime
  }

  /** `setTempo` with the tail re-planned from the end of the last committed
      note. */
  function SetTempoAnchored(s: Sequence, tempo: real): (r: Sequence)
    requires s.tempo != 0.0 && tempo != 0.0
    ensures tempo == s.tempo ==> r == s
    ensures r == s.(tempo := tempo, notes := r.notes)
    ensures |r.notes| == |s.notes|
  {
    if tempo == s.tempo then s else Retimed(s, tempo, IntendedAnchor(s))
  }

  /** With the intended anchor, the first re-planned note starts exactly when
      the last committed note ends, and the rest follow back to back at the
      new tempo. */
  lemma SetTempoAnchoredContinues(s: Sequence, tempo: real)
    requires s.tempo != 0.0 && tempo != 0.0
    requires tempo != s.tempo
    requires 0 < CountScheduled(s.notes) < |s.notes|
    ensures var k := CountScheduled(s.notes);
      var r := SetTempoAnchored(s, tempo);
      && r.notes[k - 1] == s.notes[k - 1]
      && r.notes[k].scheduledTime == r.notes[k - 1].scheduledTime + NoteSeconds(s.tempo, r.notes[k - 1].duration)
      && (forall j :: k <= j < |s.notes| - 1 ==>
            r.notes[j + 1].scheduledTime == r.notes[j].scheduledTime + NoteSeconds(tempo, r.notes[j].duration))
  {
    var k := CountScheduled(s.notes);
    var anchor := IntendedAnchor(s);
    var r := SetTempoAnchored(s, tempo);
    RetimedAt(s, tempo, anchor, k - 1);
    RetimedAt(s, tempo, anchor, k);
    assert s.notes[k..k] == [];
    forall j | k <= j < |s.notes| - 1
      ensures r.notes[j + 1].scheduledTime == r.notes[j].scheduledTime + NoteSeconds(tempo, r.notes[j].duration)
    {
      RetimedAt(s, tempo, anchor, j);
      RetimedAt(s, tempo, anchor, j + 1);
      SpanSliceStep(tempo, s.notes, k, j);
    }
  }
}

=== FILE: timing.dfy ===
/**
  Pure conversions from beats to seconds at a tempo, and the breakpoints
  inside one note: the staccato cutoff and the start of a portamento slide.
  Seconds are exact reals here; the source computes in IEEE doubles.
 */
module Timing {

  /** Length in seconds of `beats` beats at `tempo` beats per minute. */
  function NoteSeconds(tempo: real, beats: real): (r: real)
    requires tempo != 0.0
    ensures r * tempo == 60.0 * beats
    ensures tempo > 0.0 && beats >= 0.0 ==> r >= 0.0
  {
    60.0 / tempo * beats
  }

  /** The instant, relative to the note's start, at which a note of `seconds`
      length is silenced: the last `staccato` fraction of it is cut off. */
  function Cutoff(seconds: real, staccato: real): (r: real)
    ensures r + seconds * staccato == seconds
    ensures 0.0 <= staccato <= 1.0 && seconds >= 0.0 ==> 0.0 <= r <= seconds
    ensures staccato == 0.0 ==> r == seconds
  {
    var r := seconds * (1.0 - staccato);
    assert 0.0 <= staccato <= 1.0 && seconds >= 0.0 ==> 0.0 <= r <= seconds by {
      if 0.0 <= staccato <= 1.0 && seconds >= 0.0 {
        ScaledWithin(seconds, 1.0 - staccato);
      }
    }
    r
  }

  /** Scaling a non-negative amount by a fraction in [0, 1] stays within it. */
  lemma ScaledWithin(x: real, f: real)
    requires x >= 0.0 && 0.0 <= f <= 1.0
    ensures 0.0 <= x * f <= x
  {
    assert x * f <= x * 1.0;
  }

  /** How long after the note's start the slide towards the next note begins:
      the slide takes `smoothing` beats and ends at the cutoff, but never
      starts before the note itself. */
  function SlideStartDelay(tempo: real, smoothing: real, cutoff: real): (r: real)
    requires tempo != 0.0
    ensures tempo > 0.0 && smoothing >= 0.0 ==> r >= 0.0
    ensures tempo > 0.0 && smoothing >= 0.0 && cutoff >= 0.0 ==> r <= cutoff
    ensures NoteSeconds(tempo, smoothing) <= cutoff ==> cutoff - r == NoteSeconds(tempo, smoothing)
    ensures cutoff <= NoteSeconds(tempo, smoothing) ==> r == 0.0
  {
    var slide := NoteSeconds(tempo, smoothing);
    cutoff - (if cutoff <= slide then cutoff else slide)
  }
}
